=== FILE: README.md ===
# Dell fan controller core, in Dafny

`dellfan.py` is a small desktop tool that polls a Dell server's iDRAC through
`ipmitool`, shows the temperature and fan readings, and drives the fans: back
to Dell's automatic curve ("reset") or to a fixed duty cycle. Most of the file
is PyQt5 window code. This project models its pure, sequential core as
functions over strings and sequences, and proves what that core promises.

The model follows the program's own structure:

- `Text` holds the Python string operations the core relies on: `sub in s`,
  `s.split(c)` and `s.strip()`. It also defines a join, which the program
  never calls, to state that splitting loses nothing.
- `HexFormat` holds `format(n, '02x')`, and a hex reader used to state its
  round trip.
- `Ipmi` builds the command line shared by every call:
  `<tool> -I lanplus -H <ip> -U <user> -P <password> <subcommand>`.
- `SensorParser` models `parse_sensor_data`. It keeps lines containing `Temp`
  or `RPM` and splits each kept line on `|`.
- `SensorPoll` models `execute_cmd`, `get_sensor_data` and one pass of
  `SensorDataThread.run`. That pass emits no signal, `error_occurred` or
  `data_ready(rows)`.
- `FanPolicy` models the decision in `auto_adjust_fan_speed`. The maximum
  parseable `Temp` reading starts from 0. If it is above the threshold, the
  fans are reset. Otherwise the fixed literal speed `"10"` is set.
- `FanActuator` models `execute_reset_fan_control`, `execute_set_fan_speed`
  and `set_fan_speed`. Each returns the command lines it issues, in order, and
  whether it succeeded.
- `Display` models `translate_sensor_name`, `translate_unit` and the cell
  mapping of `populate_sensor_table`.
- `FanController` glues these together as `auto_adjust_fan_speed` (decision
  plus action) and `update_sensor_data` (fill the table, then adjust if the
  box is ticked).

External effects are parameters:

- A process is a `ProcessResult`: either the launch raised, or it gives an
  exit status and output.
- A fan action receives the exit status of each of its commands.
- Python's `float()` is the parameter `toReal: string -> Option<real>`.
- Python's `int()` is the parameter `toInt: string -> Option<int>`.

Behaviour worth knowing:

- With an empty ip, user or password, `get_sensor_data` returns `None`, and the thread
  emits nothing for that pass. `error_occurred`, whose handler opens the
  settings dialog, is emitted for any empty result, whether the command
  failed or printed no sensor line.
- `execute_cmd` returns only the stripped standard output. On a non-zero exit
  status it prints the captured standard error; the status itself is not
  returned.
- When nothing is above the threshold, auto-adjust sets the literal `"10"`.
  It does not use the manual speed field.
- The percent is not range-checked. `int()` accepts any integer, and `02x`
  formats it as it comes. A negative value prints as `-` and digits, and 256
  or more prints three or more digits.

## Model

| member | source | states |
|---|---|---|
| Text.ContainsIffOccurs | dellfan.py:233 | `sub in s` holds exactly when `sub` occurs at some position of `s` |
| Text.Split | dellfan.py:78 | `line.split('\|')` yields at least one field, and no field contains the separator |
| Text.JoinSplit | dellfan.py:78 | joining the split fields with the separator gives back the original line |
| Text.SplitCount | dellfan.py:78 | the number of fields is the number of separators plus one |
| Text.SplitJoin | dellfan.py:78 | joining one or more separator-free fields and splitting again gives back the fields |
| Text.Strip | dellfan.py:86 | `strip()` returns a contiguous piece of the output such that everything before and after it is whitespace and its own ends are not whitespace; it is empty exactly when the output is all whitespace |
| HexFormat.HexDigitsRoundTrip | dellfan.py:301 | the shortest lowercase hex numeral of n reads back as n |
| HexFormat.Format02x | dellfan.py:301 | the `02x` text has at least two characters and no padding beyond them: one zero before a single digit, no leading zero from 16 up, none after the `-` of a negative value; for p >= 0 it is lowercase hex that reads back as p; for p < 0 it is `-` followed by lowercase hex that reads back as -p |
| HexFormat.Format02xIsOneByte | dellfan.py:301 | for 0 <= p < 256, the `02x` text has exactly two lowercase hex digits |
| HexFormat.FiftyFiveIs37 | dellfan.py:301 | 55 is formatted as `37` |
| Ipmi.Invocation | dellfan.py:58-60 | a command line starts with the tool path and ` -I lanplus -H `, and ends with a space and the subcommand |
| Ipmi.InvocationWords | dellfan.py:58-60 | when the tool path, ip, user and password contain no space, the words of a command line are the tool, `-I lanplus`, `-H` ip, `-U` user, `-P` password, then the words of the subcommand |
| Ipmi.InvocationInjective | dellfan.py:285-286 | over one connection, two command lines are equal exactly when their subcommands are |
| SensorParser.Lines | dellfan.py:75 | the lines contain no line break, there are none exactly when the text is empty, and joining them with `\n` (plus the final break, if any) gives back the text |
| SensorParser.SensorLineIndices | dellfan.py:76-77 | lists, in increasing order, exactly the positions of lines containing `Temp` or `RPM` |
| SensorParser.SelectRowsExactly | dellfan.py:73-79 | there is one row per `Temp`/`RPM` line, in input order, and the k-th row is the `\|`-split of the k-th such line |
| SensorParser.ParsedRowsRoundTrip | dellfan.py:78 | each row joins back to its source line, has one field more than the line has `\|`, and its joined text is a sensor line |
| SensorParser.NoSensorLinesSelectNothing | dellfan.py:76-79 | lines without `Temp` or `RPM` produce no rows |
| SensorParser.NoRowsIffNoSensorLines | dellfan.py:73-79 | the parse is empty exactly when no line contains `Temp` or `RPM` |
| SensorParser.ParseSensorData | dellfan.py:73-79 | parsing the `splitlines` result gives the same rows as parsing a plain split on `\n`, so a trailing line break changes nothing |
| SensorParser.ParsedRowsNonEmpty | dellfan.py:78 | every parsed row has at least one field |
| SensorPoll.ExecuteCmd | dellfan.py:81-89 | None exactly when the launch raised; otherwise the stripped stdout, whatever the exit status, which is a piece of stdout surrounded only by whitespace |
| SensorPoll.ExitStatusIgnored | dellfan.py:84-86 | two runs with the same stdout give the same result, whatever their exit statuses and stderr |
| SensorPoll.GetSensorData | dellfan.py:53-68 | an empty ip, user or password gives None with no command; otherwise exactly the `sensor` command is issued, and the result is `[]` exactly when the launch failed or the stripped output parses to nothing |
| SensorPoll.Classify | dellfan.py:45-50 | None emits nothing, `[]` emits `error_occurred`, and a non-empty list emits `data_ready` with that list |
| SensorPoll.PollOnce | dellfan.py:45-50 | a pass issues no command and emits nothing exactly when credentials are missing; it emits `error_occurred` exactly when the launch failed or no sensor line was parsed; `data_ready` carries the non-empty parsed rows of the stripped output |
| SensorPoll.MissingCredentialsAreSilent | dellfan.py:54-55 | with missing credentials a poll pass issues no command and emits nothing |
| SensorPoll.PollWithCredentials | dellfan.py:57-68 | with credentials a pass issues only the `sensor` command; it signals an error exactly when the launch failed or the output has no sensor line, and otherwise publishes the parsed rows |
| SensorPoll.SuccessWithoutSensorsIsAnError | dellfan.py:63-68 | a zero-status output with no sensor line and a failed empty output both give `error_occurred` |
| FanPolicy.ScanMax | dellfan.py:267-274 | the running maximum is at least its start and every parseable `Temp` reading, and it is the start or one of those readings; it raises exactly when a row is empty or a `Temp` row has no reading field |
| FanPolicy.Decide | dellfan.py:265-281 | the decision is None exactly on IndexError; it is Reset exactly when the threshold is negative or some parseable `Temp` reading is above it; otherwise it sets speed `"10"` |
| FanPolicy.NoTemperatureMeansQuiet | dellfan.py:267-281 | with no malformed row (every row has a name, every `Temp` row a reading field) and no parseable temperature, every threshold from 0 to 100 sets speed `"10"` |
| FanPolicy.EvidenceCarriesOver | dellfan.py:268-274 | a malformed row or a reading above the bound carries over to any sequence that holds every row which is not inert |
| FanPolicy.DecisionIgnoresOrder | dellfan.py:268-276 | rearranging the rows never changes the decision |
| FanPolicy.IrrelevantRowIgnored | dellfan.py:269-274 | inserting a non-`Temp` row, or a `Temp` row whose reading `float()` rejects, never changes the decision |
| FanPolicy.OneHotRow | dellfan.py:265-281 | with one `Temp` row read as t and one non-`Temp` row, the decision is Reset exactly when t is above a non-negative threshold |
| FanPolicy.ExhaustExample | dellfan.py:265-281 | an exhaust reading of 75 beside a fan row gives Reset at threshold 70 and speed `"10"` at threshold 80 |
| FanActuator.ExecuteResetFanControl | dellfan.py:284-291 | issues one command ending in `raw 0x30 0x30 0x01 0x01`; it succeeds exactly on exit status 0 |
| FanActuator.ExecuteSetFanSpeed | dellfan.py:293-310 | if `int()` rejects the text, no command runs; otherwise it issues disable-auto and then set-duty with the `02x` payload; it succeeds exactly when `int()` accepts the text and both statuses are 0 |
| FanActuator.SpeedFromInput | dellfan.py:252 | a non-empty field is passed through unchanged (even if it holds only spaces), and an empty field becomes `"10"` |
| FanActuator.SetFanSpeed | dellfan.py:251-255 | a non-empty field starts the set-speed action with its text; an empty field starts it with `"10"` |
| FanActuator.EmptySpeedIsTen | dellfan.py:251-255 | the manual action with an empty field equals the action with `10` typed in |
| FanActuator.CommandsIgnoreExitCodes | dellfan.py:296-303 | the commands issued do not depend on exit statuses, so the second runs even if the first fails |
| FanActuator.PartialFailureFails | dellfan.py:305-308 | when exactly one of the two commands fails, both were issued and the action fails |
| FanActuator.DutyPayloadDecodes | dellfan.py:301 | for a percent in 0..255, the set-duty subcommand is `raw 0x30 0x30 0x02 0xff 0x` followed by two lowercase hex digits that read back as the percent |
| FanActuator.FiftyFivePercent | dellfan.py:293-303 | 55 percent issues disable-auto and then `raw 0x30 0x30 0x02 0xff 0x37` |
| Display.FirstMatch | dellfan.py:232-236 | finds the first table entry whose key is in the text, with no earlier key in it; None exactly when no key is in it |
| Display.LookupIsFirstMatch | dellfan.py:232-236 | a lookup returns the first matching entry's label, or the text unchanged when nothing matches |
| Display.SpecificTemperaturesWin | dellfan.py:219-236 | `Exhaust Temp` beats `Inlet Temp`, which beats the bare `Temp` label, because of the listed order |
| Display.TranslateSensorName | dellfan.py:219-236 | the label of the first listed key occurring in the name, with no earlier key occurring; the name unchanged when no key occurs |
| Display.TranslateUnit | dellfan.py:238-244 | `RPM` is checked before `degrees C`; any other unit is shown unchanged |
| Display.TranslateRow | dellfan.py:207-213 | the cell texts computed for a row, one per field: column 0 gets the translated name, column 2 the translated unit, and every other column the field unchanged |
| Display.TranslateTable | dellfan.py:206-215 | the cell texts computed for the table: one row of texts per sensor row, in order, with one text per field; only column 0 (name) and column 2 (unit) are rewritten, every other text is the field unchanged |
| FanController.AutoAdjustFanSpeed | dellfan.py:265-282 | no action starts exactly on IndexError; Reset runs the reset action, whose outcome is decided by the first exit status; otherwise the set-speed action runs with `"10"` |
| FanController.UpdateSensorData | dellfan.py:194-198 | the table is always filled; no adjustment runs when the box is unticked; it raises exactly when the box is ticked and a row is malformed; otherwise, with the box ticked, the auto-adjust action starts |
| FanController.QuietWhenNoTemperature | dellfan.py:276-281 | with no malformed row (every row has a name, every `Temp` row a reading field), no parseable temperature and a threshold in 0..100, it issues disable-auto and then duty `0x0a` |
| FanController.ParseTempLineWithoutFields | dellfan.py:73-79 | a single `Temp` line with no `\|` becomes a one-field row |
| FanController.TempLineWithoutFieldsRaises | dellfan.py:268-274 | that one-field row makes auto-adjust raise `IndexError`, so no fan command is issued |

## Left out

- Window layout, dialogs, menus and table widgets are not modelled (`initUI`, `center`, `open_settings`, `browse_for_ipmitool`, `show_settings_warning`). They are presentation only. `populate_sensor_table` is modelled only through its per-cell text mapping.
- The table widget has four columns, so a cell computed for column 4 or beyond (a line with four or more `|`) is never displayed. `setRowCount` keeps the rows it does not drop, so cells from an earlier, longer row stay on screen. The model states the texts computed, not what the widget shows.
- Thread lifecycle is not modelled: `QThread` start/quit, the `while True` loop, `sleep(5)` and `start_sensor_thread`/`toggle_auto_adjust`. This is concurrency. The model covers one loop iteration. Also, `quit()` does not stop an overridden `run`, so the source does not guarantee a single active session.
- `subprocess.run`, shell parsing of the unquoted command line, and console printing are not modelled. These are foreign calls, represented by `ProcessResult` and by exit-status parameters.
- Reading and writing `DellFanController.ini` and locating `ipmitool.exe` are not modelled (`load_settings`, `_save_settings_to_file`, `get_default_ipmitool_path`). This is file I/O.
- The exact grammars of Python's `float()` and `int()` are not modelled, including whitespace, underscores, `nan` and `inf`. They are the abstract parsers `toReal` and `toInt`. An infinite reading has no `real` counterpart.
- SensorParser.Lines: splits on `\n` only. `splitlines` also breaks at `\r`, `\r\n` and other separators. `SensorParser.ParseSensorData` states that the dropped trailing empty piece makes no difference.
- A fan action whose `subprocess.run` itself raises is not modelled. Each command is assumed to produce an exit status. The reset action has no handler for such an exception, while the set-speed action's `except Exception` would catch it.
- SensorPoll.GetSensorData: the `except Exception` branch that returns None is not modelled. Nothing inside that `try` can raise in the model, because `execute_cmd` catches its own exceptions.
- FanPolicy.Decide: rows are compared as real numbers with the threshold. Floating-point rounding of `float()` results is not modelled.

=== FILE: Display.dfy ===
/** The table shown to the user: `translate_sensor_name`, `translate_unit` and
    the per-cell mapping of `populate_sensor_table`. Both translations are
    first-match lookups over an ordered list of (substring, label) pairs. */
module Display {
  import opened Wrappers
  import opened Text
  import opened SensorParser

  /** The sensor-name table in its listed order; the dictionary's insertion
      order is its iteration order. */
  const NameTranslations: seq<(string, string)> := [
    ("Exhaust Temp", "排出空气温度"),
    ("Inlet Temp", "进入空气温度"),
    ("Temp", "CPU温度"),
    ("Fan1 RPM", "风扇1转速"),
    ("Fan2 RPM", "风扇2转速"),
    ("Fan3 RPM", "风扇3转速"),
    ("Fan4 RPM", "风扇4转速"),
    ("Fan5 RPM", "风扇5转速"),
    ("Fan6 RPM", "风扇6转速")
  ]

  /** The unit checks, `RPM` tested before `degrees C`. */
  const UnitTranslations: seq<(string, string)> := [
    ("RPM", "转/分钟"),
    ("degrees C", "摄氏度°C")
  ]

  /** Position of the first entry whose key occurs in `s`. */
  function FirstMatch(table: seq<(string, string)>, s: string): (r: Option<nat>)
    ensures r.Some? ==> r.value < |table| && Contains(s, table[r.value].0)
    ensures r.Some? ==> forall j :: 0 <= j < r.value ==> !Contains(s, table[j].0)
    ensures r.None? <==> forall j :: 0 <= j < |table| ==> !Contains(s, table[j].0)
    decreases |table|
  {
    if |table| == 0 then None
    else if Contains(s, table[0].0) then Some(0)
    else
      match FirstMatch(table[1..], s)
      case None => None
      case Some(k) => Some(k + 1)
  }

  /** The label of the first matching entry, or `s` itself when none matches. */
  function Lookup(table: seq<(string, string)>, s: string): string {
    match FirstMatch(table, s)
    case None => s
    case Some(k) => table[k].1
  }

  /** `translate_sensor_name`: the label of the first listed key occurring in
      the name, or the name itself when none does. */
  function TranslateSensorName(name: string): (r: string)
    ensures (forall j :: 0 <= j < |NameTranslations| ==> !Contains(name, NameTranslations[j].0)) ==> r == name
    ensures forall i :: 0 <= i < |NameTranslations| && Contains(name, NameTranslations[i].0) &&
                        (forall j :: 0 <= j < i ==> !Contains(name, NameTranslations[j].0)) ==>
                        r == NameTranslations[i].1
  {
    LookupIsFirstMatch(NameTranslations, name);
    Lookup(NameTranslations, name)
  }

  /** `translate_unit`: `RPM` is checked first, then `degrees C`; any other
      unit is shown as it is. */
  function TranslateUnit(unit: string): (r: string)
    ensures Contains(unit, "RPM") ==> r == "转/分钟"
    ensures !Contains(unit, "RPM") && Contains(unit, "degrees C") ==> r == "摄氏度°C"
    ensures !Contains(unit, "RPM") && !Contains(unit, "degrees C") ==> r == unit
  {
    Lookup(UnitTranslations, unit)
  }

  /** What a lookup returns, stated without `FirstMatch`: the label of an entry
      whose key occurs in `s` and no earlier key does, or `s` unchanged when no
      key occurs. */
  lemma LookupIsFirstMatch(table: seq<(string, string)>, s: string)
    ensures (forall j :: 0 <= j < |table| ==> !Contains(s, table[j].0)) ==> Lookup(table, s) == s
    ensures forall i :: 0 <= i < |table| && Contains(s, table[i].0) &&
                        (forall j :: 0 <= j < i ==> !Contains(s, table[j].0)) ==>
                        Lookup(table, s) == table[i].1
  {
  }

  /** Specific names beat the bare `Temp` entry because they are listed first:
      any name containing `Exhaust Temp` gets the exhaust label, and a name
      containing `Inlet Temp` but not `Exhaust Temp` gets the inlet label. */
  lemma SpecificTemperaturesWin(name: string)
    ensures Contains(name, "Exhaust Temp") ==> TranslateSensorName(name) == "排出空气温度"
    ensures !Contains(name, "Exhaust Temp") && Contains(name, "Inlet Temp") ==>
              TranslateSensorName(name) == "进入空气温度"
    ensures !Contains(name, "Exhaust Temp") && !Contains(name, "Inlet Temp") && Contains(name, "Temp") ==>
              TranslateSensorName(name) == "CPU温度"
  {
  }

  /** The cell text at column `col`: only the name (column 0) and the unit
      (column 2) are translated. */
  function TranslateCell(col: nat, value: string): string {
    if col == 0 then TranslateSensorName(value)
    else if col == 2 then TranslateUnit(value)
    else value
  }

  /** The cells of one table row: the name and the unit translated, every other
      cell as parsed. */
  function TranslateRow(row: Row): (cells: seq<string>)
    ensures |cells| == |row|
    ensures |row| > 0 ==> cells[0] == TranslateSensorName(row[0])
    ensures |row| > 2 ==> cells[2] == TranslateUnit(row[2])
    ensures forall c :: 0 <= c < |row| && c != 0 && c != 2 ==> cells[c] == row[c]
  {
    seq(|row|, c requires 0 <= c < |row| => TranslateCell(c, row[c]))
  }

  /** The cell texts of the whole table, one row per sensor row in order:
      only the name and unit texts change, and every other field is passed to
      the widget unchanged. */
  function TranslateTable(rows: seq<Row>): (table: seq<seq<string>>)
    ensures |table| == |rows|
    ensures forall r :: 0 <= r < |rows| ==> |table[r]| == |rows[r]|
    ensures forall r :: 0 <= r < |rows| && |rows[r]| > 0 ==> table[r][0] == TranslateSensorName(rows[r][0])
    ensures forall r :: 0 <= r < |rows| && |rows[r]| > 2 ==> table[r][2] == TranslateUnit(rows[r][2])
    ensures forall r, c :: 0 <= r < |rows| && 0 <= c < |rows[r]| && c != 0 && c != 2 ==>
              table[r][c] == rows[r][c]
  {
    seq(|rows|, r requires 0 <= r < |rows| => TranslateRow(rows[r]))
  }
}

=== FILE: FanActuator.dfy ===
/** The two fan actions: `execute_reset_fan_control` (give the fans back to the
    vendor's automatic curve) and `execute_set_fan_speed` (switch the automatic
    curve off, then fix the duty cycle), plus the manual entry point
    `set_fan_speed`. Processes are abstract: each action receives the exit
    status its commands would report. Python's `int()` is the abstract partial
    parser `toInt`. */
module FanActuator {
  import opened Wrappers
  import opened Text
  import opened Ipmi
  import opened HexFormat

  const ResetToAuto := "raw 0x30 0x30 0x01 0x01"
  const DisableAuto := "raw 0x30 0x30 0x01 0x00"
  const SetDutyPrefix := "raw 0x30 0x30 0x02 0xff 0x"

  /** The speed used when the manual speed field is left empty. */
  const DefaultManualSpeed := "10"

  /** How an action ended: both commands reported 0, some command reported
      non-zero, or `int()` raised before any command ran. */
  datatype Outcome = Succeeded | Failed | Aborted

  /** The command lines an action issued, in order, and how it ended. */
  datatype Action = Action(commands: seq<string>, outcome: Outcome)

  /** `execute_reset_fan_control`: one command, successful exactly on status 0. */
  function ExecuteResetFanControl(conn: Connection, exitCode: int): (a: Action)
    ensures |a.commands| == 1 && EndsWith(a.commands[0], " " + ResetToAuto)
    ensures a.commands[0] == Invocation(conn, ResetToAuto)
    ensures a.outcome == Succeeded <==> exitCode == 0
    ensures a.outcome != Aborted
  {
    Action([Invocation(conn, ResetToAuto)], if exitCode == 0 then Succeeded else Failed)
  }

  /** The set-duty subcommand for a percent, formatted with `02x`. */
  function SetDuty(percent: int): string {
    SetDutyPrefix + Format02x(percent)
  }

  /** `execute_set_fan_speed`. Both commands are always issued once `int()`
      accepts the text, the second even when the first failed; there is no
      range check and no rollback. */
  function ExecuteSetFanSpeed(conn: Connection, percent: string, toInt: string -> Option<int>,
                              disableExit: int, setExit: int): (a: Action)
    ensures toInt(percent).None? ==> a == Action([], Aborted)
    ensures toInt(percent).Some? ==>
              a.commands == [Invocation(conn, DisableAuto), Invocation(conn, SetDuty(toInt(percent).value))]
    ensures a.outcome == Succeeded <==> toInt(percent).Some? && disableExit == 0 && setExit == 0
    ensures a.outcome == Aborted <==> a.commands == []
  {
    match toInt(percent)
    case None => Action([], Aborted)
    case Some(p) =>
      var outcome := if disableExit == 0 && setExit == 0 then Succeeded else Failed;
      Action([Invocation(conn, DisableAuto), Invocation(conn, SetDuty(p))], outcome)
  }

  /** `self.speed_input.text() or "10"`. */
  function SpeedFromInput(text: string): (speed: string)
    ensures speed != ""
    ensures text != "" ==> speed == text
    ensures text == "" ==> speed == DefaultManualSpeed
  {
    if text == "" then DefaultManualSpeed else text
  }

  /** `set_fan_speed`: the manual action with the text of the speed field, or
      with `10` when the field is empty. A field holding only spaces is passed
      on as it is, and `int()` then rejects it. */
  function SetFanSpeed(conn: Connection, text: string, toInt: string -> Option<int>,
                       disableExit: int, setExit: int): (a: Action)
    ensures text != "" ==> a == ExecuteSetFanSpeed(conn, text, toInt, disableExit, setExit)
    ensures text == "" ==> a == ExecuteSetFanSpeed(conn, DefaultManualSpeed, toInt, disableExit, setExit)
  {
    ExecuteSetFanSpeed(conn, SpeedFromInput(text), toInt, disableExit, setExit)
  }

  /** An empty speed field behaves exactly like typing `10`. */
  lemma EmptySpeedIsTen(conn: Connection, toInt: string -> Option<int>, disableExit: int, setExit: int)
    ensures SetFanSpeed(conn, "", toInt, disableExit, setExit)
         == SetFanSpeed(conn, DefaultManualSpeed, toInt, disableExit, setExit)
  {
  }

  /** The commands issued never depend on the exit statuses: the second command
      runs whether or not the first succeeded. */
  lemma CommandsIgnoreExitCodes(conn: Connection, percent: string, toInt: string -> Option<int>,
                                d1: int, s1: int, d2: int, s2: int)
    ensures ExecuteSetFanSpeed(conn, percent, toInt, d1, s1).commands
         == ExecuteSetFanSpeed(conn, percent, toInt, d2, s2).commands
  {
  }

  /** One failed step makes the whole action a failure, not a partial success. */
  lemma PartialFailureFails(conn: Connection, percent: string, toInt: string -> Option<int>, disableExit: int, setExit: int)
    requires toInt(percent).Some?
    requires (disableExit == 0) != (setExit == 0)
    ensures ExecuteSetFanSpeed(conn, percent, toInt, disableExit, setExit).outcome == Failed
    ensures |ExecuteSetFanSpeed(conn, percent, toInt, disableExit, setExit).commands| == 2
  {
  }

  /** For a percent that fits in a byte, the set-duty subcommand is the fixed
      prefix ending in `0x` followed by exactly two lowercase hex digits that
      read back as the percent. */
  lemma DutyPayloadDecodes(p: int)
    requires 0 <= p < 256
    ensures StartsWith(SetDuty(p), SetDutyPrefix)
    ensures var payload := SetDuty(p)[|SetDutyPrefix|..];
            |payload| == 2 && IsLowerHex(payload) && ParseHex(payload) == Some(p)
  {
    Format02xIsOneByte(p);
    assert SetDuty(p)[|SetDutyPrefix|..] == Format02x(p);
  }

  /** The worked example: fifty-five percent switches the automatic curve off and
      then sends the byte `0x37`. */
  lemma FiftyFivePercent(conn: Connection, toInt: string -> Option<int>, disableExit: int, setExit: int)
    requires toInt("55") == Some(55)
    ensures ExecuteSetFanSpeed(conn, "55", toInt, disableExit, setExit).commands
         == [Invocation(conn, "raw 0x30 0x30 0x01 0x00"), Invocation(conn, "raw 0x30 0x30 0x02 0xff 0x37")]
  {
    FiftyFiveIs37();
    assert SetDuty(55) == SetDutyPrefix + "37" == "raw 0x30 0x30 0x02 0xff 0x37";
  }
}

=== FILE: FanController.dfy ===
/** How the pieces meet in the window: `auto_adjust_fan_speed` turns the
    decision into a fan action, and `update_sensor_data` (the handler of
    `data_ready`) fills the table, then runs the auto-adjustment when its box is
    ticked. */
module FanController {
  import opened Wrappers
  import opened Text
  import opened Ipmi
  import opened HexFormat
  import opened SensorParser
  import opened FanPolicy
  import opened FanActuator
  import opened Display

  /** `auto_adjust_fan_speed`: the action started for the decision, or None when
      the scan raised and no action starts. `firstExit` and `secondExit` are the
      statuses the action's first and second commands would report. */
  function AutoAdjustFanSpeed(conn: Connection, rows: seq<Row>, threshold: int,
                              toReal: string -> Option<real>, toInt: string -> Option<int>,
                              firstExit: int, secondExit: int): (a: Option<Action>)
    ensures a.None? <==> AnyMalformed(rows)
    ensures a.Some? && Decide(rows, threshold, toReal) == Some(Reset) ==>
              a.value == ExecuteResetFanControl(conn, firstExit)
    ensures a.Some? && Decide(rows, threshold, toReal) != Some(Reset) ==>
              a.value == ExecuteSetFanSpeed(conn, QuietSpeed, toInt, firstExit, secondExit)
  {
    match Decide(rows, threshold, toReal)
    case None => None
    case Some(Reset) => Some(ExecuteResetFanControl(conn, firstExit))
    case Some(SetSpeed(percent)) => Some(ExecuteSetFanSpeed(conn, percent, toInt, firstExit, secondExit))
  }

  /** What the auto-adjustment step of an update did. */
  datatype Adjustment = AutoOff | Raised | Started(action: Action)

  /** The effect of one `data_ready` delivery: the table filled and the
      adjustment made. The table is filled before the adjustment runs. */
  datatype Update = Update(table: seq<seq<string>>, adjustment: Adjustment)

  function UpdateSensorData(conn: Connection, rows: seq<Row>, autoAdjust: bool, threshold: int,
                            toReal: string -> Option<real>, toInt: string -> Option<int>,
                            firstExit: int, secondExit: int): (u: Update)
    ensures u.table == TranslateTable(rows)
    ensures !autoAdjust <==> u.adjustment == AutoOff
    ensures u.adjustment.Raised? <==> autoAdjust && AnyMalformed(rows)
    ensures autoAdjust && !AnyMalformed(rows) ==>
              u.adjustment == Started(AutoAdjustFanSpeed(conn, rows, threshold, toReal, toInt,
                                                         firstExit, secondExit).value)
  {
    var adjustment :=
      if !autoAdjust then AutoOff
      else match AutoAdjustFanSpeed(conn, rows, threshold, toReal, toInt, firstExit, secondExit)
        case None => Raised
        case Some(a) => Started(a);
    Update(TranslateTable(rows), adjustment)
  }

  /** When nothing is above the threshold the fans are set to ten percent:
      automatic mode off, then duty byte `0a`. With no malformed row and no
      parseable temperature this happens for every threshold the spin box
      allows. */
  lemma QuietWhenNoTemperature(conn: Connection, rows: seq<Row>, threshold: int,
                               toReal: string -> Option<real>, toInt: string -> Option<int>,
                               firstExit: int, secondExit: int)
    requires 0 <= threshold <= 100
    requires !AnyMalformed(rows)
    requires forall i :: 0 <= i < |rows| ==> Reading(rows[i], toReal).None?
    requires toInt(QuietSpeed) == Some(10)
    ensures AutoAdjustFanSpeed(conn, rows, threshold, toReal, toInt, firstExit, secondExit)
         == Some(Action([Invocation(conn, DisableAuto), Invocation(conn, "raw 0x30 0x30 0x02 0xff 0x0a")],
                        if firstExit == 0 && secondExit == 0 then Succeeded else Failed))
  {
    NoTemperatureMeansQuiet(rows, threshold, toReal);
    assert HexDigits(10) == "a";
    assert SetDuty(10) == "raw 0x30 0x30 0x02 0xff 0x0a";
  }

  /** The parser turns a single `Temp` line without `|` into a one-field row. */
  lemma ParseTempLineWithoutFields(line: string)
    requires Contains(line, "Temp")
    requires '\n' !in line && '|' !in line
    ensures ParseSensorData(line) == [[line]]
  {
    assert line != "" by {
      if line == "" {
        ShorterDoesNotContain(line, "Temp");
      }
    }
    SplitWithoutSeparator(line, '\n');
    SplitWithoutSeparator(line, '|');
    assert SelectRows([line]) == [[line]] by {
      assert [line][..0] == [];
    }
  }

  /** Such a line passes the parser, and the auto-adjustment then raises on it:
      no fan command is issued for that update. */
  lemma TempLineWithoutFieldsRaises(line: string, conn: Connection, threshold: int,
                                    toReal: string -> Option<real>, toInt: string -> Option<int>,
                                    firstExit: int, secondExit: int)
    requires Contains(line, "Temp")
    requires '\n' !in line && '|' !in line
    ensures AutoAdjustFanSpeed(conn, ParseSensorData(line), threshold, toReal, toInt, firstExit, secondExit).None?
  {
    ParseTempLineWithoutFields(line);
    var rows: seq<Row> := [[line]];
    assert Malformed(rows[0]);
    assert AnyMalformed(rows);
  }
}

=== FILE: FanPolicy.dfy ===
/** `auto_adjust_fan_speed`'s decision: the hottest parseable temperature,
    starting from 0, against the threshold. Above it the controller hands the
    fans back to the vendor curve; otherwise it asks for the fixed quiet speed
    `"10"`. Python's `float()` is the abstract partial parser `toReal`. */
module FanPolicy {
  import opened Wrappers
  import opened Text
  import opened SensorParser

  /** The speed text used when the temperature is at or below the threshold; it
      is a literal of its own, not the manual speed field. */
  const QuietSpeed := "10"

  datatype Decision = Reset | SetSpeed(percent: string)

  /** A row on which the scan raises `IndexError`: no name, or a `Temp` name
      with no reading field. Only `ValueError` is caught, so this escapes. */
  predicate Malformed(row: Row) {
    |row| == 0 || (Contains(row[0], "Temp") && |row| < 2)
  }

  /** The temperature a row contributes: its parsed reading when it is a
      well-formed `Temp` row and `float()` accepts the reading. */
  function Reading(row: Row, toReal: string -> Option<real>): Option<real> {
    if |row| >= 2 && Contains(row[0], "Temp") then toReal(row[1]) else None
  }

  predicate AnyMalformed(rows: seq<Row>) {
    exists i :: 0 <= i < |rows| && Malformed(rows[i])
  }

  /** Some row contributes a temperature strictly above `bound`. */
  predicate SomeReadingAbove(rows: seq<Row>, toReal: string -> Option<real>, bound: real) {
    exists i :: 0 <= i < |rows| && Reading(rows[i], toReal).Some? && Reading(rows[i], toReal).value > bound
  }

  /** The loop `max_temp = max(max_temp, temp)` from the accumulator `acc`; None
      when a malformed row raises. */
  function ScanMax(rows: seq<Row>, toReal: string -> Option<real>, acc: real): (r: Option<real>)
    ensures r.None? <==> AnyMalformed(rows)
    ensures r.Some? ==> acc <= r.value
    ensures r.Some? ==> forall i :: 0 <= i < |rows| && Reading(rows[i], toReal).Some? ==>
                          Reading(rows[i], toReal).value <= r.value
    ensures r.Some? && r.value != acc ==>
              exists i :: 0 <= i < |rows| && Reading(rows[i], toReal) == Some(r.value)
    decreases |rows|
  {
    if |rows| == 0 then Some(acc)
    else if Malformed(rows[0]) then None
    else
      var next := match Reading(rows[0], toReal)
        case None => acc
        case Some(t) => if t > acc then t else acc;
      var rest := ScanMax(rows[1..], toReal, next);
      assert forall i :: 1 <= i < |rows| ==> rows[i] == rows[1..][i - 1];
      rest
  }

  /** The decision, or None when the scan raised and no fan action is started. */
  function Decide(rows: seq<Row>, threshold: int, toReal: string -> Option<real>): (d: Option<Decision>)
    ensures d.None? <==> AnyMalformed(rows)
    ensures d == Some(Reset) <==>
              !AnyMalformed(rows) && (threshold < 0 || SomeReadingAbove(rows, toReal, threshold as real))
    ensures d.Some? && d.value.SetSpeed? ==> d.value.percent == QuietSpeed
  {
    match ScanMax(rows, toReal, 0.0)
    case None => None
    case Some(maxTemp) => if maxTemp > threshold as real then Some(Reset) else Some(SetSpeed(QuietSpeed))
  }

  /** With no malformed row and no parseable temperature the maximum stays 0,
      so any threshold the spin box allows (0 to 100) selects the quiet speed: a
      total sensor failure looks like a cool machine. */
  lemma NoTemperatureMeansQuiet(rows: seq<Row>, threshold: int, toReal: string -> Option<real>)
    requires 0 <= threshold <= 100
    requires !AnyMalformed(rows)
    requires forall i :: 0 <= i < |rows| ==> Reading(rows[i], toReal).None?
    ensures Decide(rows, threshold, toReal) == Some(SetSpeed(QuietSpeed))
  {
  }

  /** A row contributes nothing to the decision: it neither raises nor offers a
      temperature. */
  predicate Inert(row: Row, toReal: string -> Option<real>) {
    !Malformed(row) && Reading(row, toReal).None?
  }

  /** Whatever malformed row or hot reading `rows` has, a sequence holding all
      of its rows that are not inert has too. */
  lemma EvidenceCarriesOver(rows: seq<Row>, other: seq<Row>, bound: real, toReal: string -> Option<real>)
    requires forall i :: 0 <= i < |rows| ==> rows[i] in other || Inert(rows[i], toReal)
    ensures AnyMalformed(rows) ==> AnyMalformed(other)
    ensures SomeReadingAbove(rows, toReal, bound) ==> SomeReadingAbove(other, toReal, bound)
  {
  }

  /** Row order does not matter: any rearrangement of the rows gives the same
      decision. */
  lemma DecisionIgnoresOrder(rows: seq<Row>, other: seq<Row>, threshold: int, toReal: string -> Option<real>)
    requires multiset(rows) == multiset(other)
    ensures Decide(rows, threshold, toReal) == Decide(other, threshold, toReal)
  {
    forall i | 0 <= i < |rows|
      ensures rows[i] in other
    {
      assert rows[i] in multiset(other);
    }
    forall j | 0 <= j < |other|
      ensures other[j] in rows
    {
      assert other[j] in multiset(rows);
    }
    EvidenceCarriesOver(rows, other, threshold as real, toReal);
    EvidenceCarriesOver(other, rows, threshold as real, toReal);
  }

  /** A well-formed row that contributes no temperature (a fan row, or a `Temp`
      row whose reading `float()` rejects) can be added anywhere without
      changing the decision. */
  lemma IrrelevantRowIgnored(rows: seq<Row>, k: nat, x: Row, threshold: int, toReal: string -> Option<real>)
    requires k <= |rows|
    requires Inert(x, toReal)
    ensures Decide(rows[..k] + [x] + rows[k..], threshold, toReal) == Decide(rows, threshold, toReal)
  {
    var longer := rows[..k] + [x] + rows[k..];
    forall i | 0 <= i < |rows|
      ensures rows[i] in longer
    {
      if i < k {
        assert longer[i] == rows[i];
      } else {
        assert longer[i + 1] == rows[i];
      }
    }
    forall i | 0 <= i < |longer|
      ensures longer[i] in rows || Inert(longer[i], toReal)
    {
      if i < k {
        assert longer[i] == rows[i];
      } else if i > k {
        assert longer[i] == rows[i - 1];
      }
    }
    EvidenceCarriesOver(rows, longer, threshold as real, toReal);
    EvidenceCarriesOver(longer, rows, threshold as real, toReal);
  }

  /** A hot sensor row beside a row that is not a temperature: the decision
      depends only on how the hot reading compares with the threshold. */
  lemma OneHotRow(hot: Row, other: Row, t: real, threshold: int, toReal: string -> Option<real>)
    requires |hot| >= 2 && Contains(hot[0], "Temp") && toReal(hot[1]) == Some(t)
    requires |other| >= 1 && !Contains(other[0], "Temp")
    requires threshold >= 0
    ensures t > threshold as real ==> Decide([hot, other], threshold, toReal) == Some(Reset)
    ensures t <= threshold as real ==> Decide([hot, other], threshold, toReal) == Some(SetSpeed(QuietSpeed))
  {
  }

  lemma ExampleNames()
    ensures Contains("Exhaust Temp", "Temp")
    ensures !Contains("Fan1 RPM", "Temp")
  {
    assert OccursAt("Exhaust Temp", "Temp", 8);
    ContainsAt("Exhaust Temp", "Temp", 8);
    ContainsIffOccurs("Fan1 RPM", "Temp");
    forall i | 0 <= i <= 4
      ensures !OccursAt("Fan1 RPM", "Temp", i)
    {
      assert "Fan1 RPM"[i..i + 4][0] == "Fan1 RPM"[i] != 'T' == "Temp"[0];
    }
  }

  /** The worked examples: an exhaust reading of 75 beside a fan row resets the
      fans at threshold 70 and selects the quiet speed at threshold 80. */
  lemma ExhaustExample(toReal: string -> Option<real>)
    requires toReal("75") == Some(75.0)
    ensures Decide([["Exhaust Temp", "75", "degrees C", "ok"], ["Fan1 RPM", "3000", "RPM", "ok"]], 70, toReal) == Some(Reset)
    ensures Decide([["Exhaust Temp", "75", "degrees C", "ok"], ["Fan1 RPM", "3000", "RPM", "ok"]], 80, toReal) == Some(SetSpeed(QuietSpeed))
  {
    ExampleNames();
    OneHotRow(["Exhaust Temp", "75", "degrees C", "ok"], ["Fan1 RPM", "3000", "RPM", "ok"], 75.0, 70, toReal);
    OneHotRow(["Exhaust Temp", "75", "degrees C", "ok"], ["Fan1 RPM", "3000", "RPM", "ok"], 75.0, 80, toReal);
  }
}

=== FILE: HexFormat.dfy ===
/** Python's `format(n, '02x')` on integers (the `{percent_num:02x}` field of the
    set-duty command) and a hexadecimal reader to state its round trip. */
module HexFormat {
  import opened Wrappers

  /** The lowercase hexadecimal digit for `d`. */
  function HexDigit(d: nat): (c: char)
    requires d < 16
    ensures '0' <= c <= '9' || 'a' <= c <= 'f'
  {
    if d < 10 then (48 + d) as char else (97 + d - 10) as char
  }

  /** The value of a hexadecimal digit, either case; None for any other character. */
  function DigitValue(c: char): (v: Option<nat>)
    ensures v.Some? ==> v.value < 16
  {
    if '0' <= c <= '9' then Some(c as int - 48)
    else if 'a' <= c <= 'f' then Some(c as int - 97 + 10)
    else if 'A' <= c <= 'F' then Some(c as int - 65 + 10)
    else None
  }

  predicate IsLowerHex(s: string) {
    forall k :: 0 <= k < |s| ==> '0' <= s[k] <= '9' || 'a' <= s[k] <= 'f'
  }

  /** The shortest lowercase hexadecimal numeral of `n` (Python's `format(n, 'x')`). */
  function HexDigits(n: nat): (r: string)
    ensures |r| >= 1 && IsLowerHex(r)
    ensures n >= 16 ==> |r| >= 2
    ensures n > 0 ==> r[0] != '0'
    decreases n
  {
    if n < 16 then [HexDigit(n)] else HexDigits(n / 16) + [HexDigit(n % 16)]
  }

  /** `format(p, '02x')`: at least two characters, zero-padded after the sign. A
      negative value prints as `-` followed by its magnitude, which already fills
      the width, so it is never padded. There is no upper bound, so 256 and
      above print more digits; every value reads back as itself. */
  function Format02x(p: int): (r: string)
    ensures |r| >= 2
    ensures 0 <= p < 16 ==> |r| == 2 && r[0] == '0'
    ensures p >= 16 ==> r[0] != '0'
    ensures p < 0 ==> r[1] != '0'
    ensures p >= 0 ==> IsLowerHex(r) && ParseHex(r) == Some(p)
    ensures p < 0 ==> r[0] == '-' && IsLowerHex(r[1..]) && ParseHex(r[1..]) == Some(-p)
  {
    if p < 0 then
      HexDigitsRoundTrip(-p);
      assert ("-" + HexDigits(-p))[1..] == HexDigits(-p);
      "-" + HexDigits(-p)
    else if p < 16 then
      PaddedRoundTrip(p);
      "0" + HexDigits(p)
    else
      HexDigitsRoundTrip(p);
      HexDigits(p)
  }

  /** Reads a non-empty run of hexadecimal digits, most significant first. */
  function ParseHex(s: string): (v: Option<nat>)
    ensures |s| == 0 ==> v.None?
    decreases |s|
  {
    if |s| == 0 then None
    else
      match DigitValue(s[|s| - 1])
      case None => None
      case Some(d) =>
        if |s| == 1 then Some(d)
        else
          match ParseHex(s[..|s| - 1])
          case None => None
          case Some(hi) => Some(hi * 16 + d)
  }

  lemma DigitRoundTrip(d: nat)
    requires d < 16
    ensures DigitValue(HexDigit(d)) == Some(d)
  {
  }

  /** Appending a digit multiplies the value read so far by sixteen and adds
      the digit. */
  lemma ParseHexAppend(s: string, c: char)
    requires ParseHex(s).Some? && DigitValue(c).Some?
    ensures ParseHex(s + [c]) == Some(ParseHex(s).value * 16 + DigitValue(c).value)
  {
  }

  /** Reading back the numeral of `n` gives `n`. */
  lemma {:induction false} HexDigitsRoundTrip(n: nat)
    ensures ParseHex(HexDigits(n)) == Some(n)
    decreases n
  {
    if n < 16 {
      DigitRoundTrip(n);
      assert HexDigits(n) == [HexDigit(n)];
    } else {
      var hi, lo := n / 16, n % 16;
      DigitRoundTrip(lo);
      HexDigitsRoundTrip(hi);
      assert HexDigits(n) == HexDigits(hi) + [HexDigit(lo)];
      ParseHexAppend(HexDigits(hi), HexDigit(lo));
      assert hi * 16 + lo == n;
    }
  }

  /** A single digit padded with a leading zero still reads back as itself. */
  lemma PaddedRoundTrip(p: nat)
    requires p < 16
    ensures IsLowerHex("0" + HexDigits(p))
    ensures ParseHex("0" + HexDigits(p)) == Some(p)
  {
    var s := "0" + HexDigits(p);
    DigitRoundTrip(p);
    assert s[..|s| - 1] == "0";
    assert ParseHex("0") == Some(0);
  }

  /** A value that fits in one byte is encoded as exactly two lowercase digits. */
  lemma {:induction false} Format02xIsOneByte(p: int)
    requires 0 <= p < 256
    ensures |Format02x(p)| == 2
    ensures IsLowerHex(Format02x(p))
  {
    if p >= 16 {
      assert HexDigits(p) == HexDigits(p / 16) + [HexDigit(p % 16)];
      assert |HexDigits(p / 16)| == 1;
    }
  }

  /** The worked example: fifty-five percent is the byte `37`. */
  lemma FiftyFiveIs37()
    ensures Format02x(55) == "37"
  {
  }
}

=== FILE: Ipmi.dfy ===
/** The command lines handed to the remote-management tool. Every invocation
    has the shape `<tool> -I lanplus -H <ip> -U <user> -P <password> <subcommand>`,
    built by plain string formatting with no quoting. */
module Ipmi {
  import opened Text

  /** The connection settings a fetch or a fan action is launched with. */
  datatype Connection = Connection(toolPath: string, ip: string, user: string, password: string)

  const SensorDump := "sensor"

  /** The text before the subcommand: tool path, interface and credentials. */
  function Prefix(conn: Connection): string {
    conn.toolPath + " -I lanplus -H " + conn.ip + " -U " + conn.user + " -P " + conn.password + " "
  }

  /** The full command line for `subcommand`. */
  function Invocation(conn: Connection, subcommand: string): (cmd: string)
    ensures StartsWith(cmd, conn.toolPath + " -I lanplus -H ")
    ensures EndsWith(cmd, " " + subcommand)
    ensures |cmd| == |Prefix(conn)| + |subcommand|
  {
    var p := Prefix(conn);
    assert (p + subcommand)[..|conn.toolPath + " -I lanplus -H "|] == conn.toolPath + " -I lanplus -H ";
    assert (p + subcommand)[|p| - 1..] == " " + subcommand;
    p + subcommand
  }

  /** Two invocations over the same connection differ exactly when their
      subcommands differ. */
  lemma InvocationInjective(conn: Connection, a: string, b: string)
    ensures Invocation(conn, a) == Invocation(conn, b) <==> a == b
  {
    var p := Prefix(conn);
    if Invocation(conn, a) == Invocation(conn, b) {
      assert a == (p + a)[|p|..];
      assert b == (p + b)[|p|..];
    }
  }

  /** The words before the subcommand. */
  function HeaderWords(conn: Connection): seq<string> {
    [conn.toolPath, "-I", "lanplus", "-H", conn.ip, "-U", conn.user, "-P", conn.password]
  }

  /** Joining a flag and its value in front of further words. */
  lemma {:induction false} FlagJoin(flag: string, value: string, rest: seq<string>)
    requires |rest| >= 1
    ensures Join([flag, value] + rest, ' ') == flag + " " + value + " " + Join(rest, ' ')
  {
    var all := [flag, value] + rest;
    var tail := [value] + rest;
    assert all[0] == flag && all[1..] == tail;
    assert Join(all, ' ') == flag + [' '] + Join(tail, ' ');
    assert tail[0] == value && tail[1..] == rest;
    assert Join(tail, ' ') == value + [' '] + Join(rest, ' ');
  }

  lemma {:induction false} UserWordsJoin(user: string, password: string)
    ensures Join(["-U", user, "-P", password], ' ') == "-U " + user + " -P " + password
  {
    var last := ["-P", password];
    assert Join(last, ' ') == "-P" + [' '] + password by {
      assert last[1..] == [password];
    }
    assert ["-U", user, "-P", password] == ["-U", user] + last;
    FlagJoin("-U", user, last);
  }

  lemma {:induction false} HostWordsJoin(ip: string, user: string, password: string)
    ensures Join(["-H", ip, "-U", user, "-P", password], ' ')
         == "-H " + ip + " -U " + user + " -P " + password
  {
    var rest := ["-U", user, "-P", password];
    assert ["-H", ip, "-U", user, "-P", password] == ["-H", ip] + rest;
    FlagJoin("-H", ip, rest);
    UserWordsJoin(user, password);
  }

  /** The prefix cut after the interface options. */
  lemma PrefixAfterInterface(conn: Connection)
    ensures Prefix(conn)
         == conn.toolPath + " " + "-I lanplus " + ("-H " + conn.ip + " -U " + conn.user + " -P " + conn.password) + " "
  {
    assert " -I lanplus -H " == " " + "-I lanplus " + "-H ";
  }

  lemma {:induction false} HeaderWordsJoin(conn: Connection)
    ensures Join(HeaderWords(conn), ' ') + " " == Prefix(conn)
  {
    var rest := ["-H", conn.ip, "-U", conn.user, "-P", conn.password];
    var host := "-H " + conn.ip + " -U " + conn.user + " -P " + conn.password;
    var w := HeaderWords(conn);
    HostWordsJoin(conn.ip, conn.user, conn.password);
    assert Join(rest, ' ') == host;
    assert w[1..] == ["-I", "lanplus"] + rest;
    FlagJoin("-I", "lanplus", rest);
    assert "-I" + " " + "lanplus" + " " == "-I lanplus ";
    var tail := Join(w[1..], ' ');
    assert tail == "-I lanplus " + host;
    assert Join(w, ' ') == conn.toolPath + " " + tail;
    PrefixAfterInterface(conn);
  }

  /** The space-separated words of the command line when the settings contain
      no spaces: the tool, the interface and credential options, each value
      after its own flag, then the words of the subcommand. How the shell then
      reads those words is not modelled. */
  lemma InvocationWords(conn: Connection, subcommand: string)
    requires ' ' !in conn.toolPath && ' ' !in conn.ip && ' ' !in conn.user && ' ' !in conn.password
    ensures Split(Invocation(conn, subcommand), ' ')
         == [conn.toolPath, "-I", "lanplus", "-H", conn.ip, "-U", conn.user, "-P", conn.password]
            + Split(subcommand, ' ')
  {
    var words := HeaderWords(conn);
    var sub := Split(subcommand, ' ');
    HeaderWordsJoin(conn);
    JoinSplit(subcommand, ' ');
    JoinAppend(words, sub, ' ');
    assert Join(words + sub, ' ') == Invocation(conn, subcommand);
    forall k | 0 <= k < |words + sub|
      ensures ' ' !in (words + sub)[k]
    {
      if k >= |words| {
        assert (words + sub)[k] == sub[k - |words|];
      }
    }
    SplitJoin(words + sub, ' ');
  }
}

=== FILE: SensorParser.dfy ===
/** `SensorDataThread.parse_sensor_data`: the sensor dump is cut into lines, the
    lines mentioning `Temp` or `RPM` are kept, and each kept line is split on `|`
    into its fields (name, reading, unit, status, ...), untrimmed. */
module SensorParser {
  import opened Text

  /** One parsed sensor line: its `|`-separated fields. */
  type Row = seq<string>

  const Delimiter: char := '|'

  /** The line filter `re.search(r'Temp|RPM', line)`, case-sensitive. */
  predicate IsSensorLine(line: string) {
    Contains(line, "Temp") || Contains(line, "RPM")
  }

  /** `raw.splitlines()` for text whose only line break is `\n`: the pieces
      between breaks, where a final break does not open an empty last line. */
  function Lines(raw: string): (lines: seq<string>)
    ensures raw == "" <==> lines == []
    ensures forall k :: 0 <= k < |lines| ==> '\n' !in lines[k]
    ensures Join(lines, '\n') + (if raw != "" && raw[|raw| - 1] == '\n' then "\n" else "") == raw
  {
    if raw == "" then []
    else
      var pieces := Split(raw, '\n');
      LinesRejoin(raw, pieces);
      if |pieces| > 1 && pieces[|pieces| - 1] == "" then pieces[..|pieces| - 1] else pieces
  }

  /** The pieces of a non-empty text rejoin into it; the last piece is empty
      exactly when the text ends in a line break. */
  lemma LinesRejoin(raw: string, pieces: seq<string>)
    requires raw != "" && pieces == Split(raw, '\n')
    ensures Join(pieces, '\n') == raw
    ensures |pieces| > 1 && pieces[|pieces| - 1] == "" ==>
              Join(pieces[..|pieces| - 1], '\n') + "\n" == raw
    ensures !(|pieces| > 1 && pieces[|pieces| - 1] == "") ==> raw[|raw| - 1] != '\n'
  {
    JoinSplit(raw, '\n');
    LastPieceEnds(pieces, raw, '\n');
  }

  /** How the last of separator-free pieces shows in their join. */
  lemma LastPieceEnds(pieces: seq<string>, joined: string, sep: char)
    requires |pieces| >= 1 && joined != "" && Join(pieces, sep) == joined
    requires sep !in pieces[|pieces| - 1]
    ensures |pieces| > 1 && pieces[|pieces| - 1] == "" ==>
              Join(pieces[..|pieces| - 1], sep) + [sep] == joined
    ensures !(|pieces| > 1 && pieces[|pieces| - 1] == "") ==> joined[|joined| - 1] != sep
  {
    var n := |pieces| - 1;
    var last := pieces[n];
    if n > 0 {
      JoinLast(pieces, sep);
      var front := Join(pieces[..n], sep) + [sep];
      assert joined == front + last;
      if last == "" {
        assert front + last == front;
      } else {
        assert joined[|joined| - 1] == last[|last| - 1];
      }
    }
  }

  /** The kept lines, split into fields. */
  function SelectRows(lines: seq<string>): (rows: seq<Row>)
    ensures |rows| <= |lines|
    decreases |lines|
  {
    if |lines| == 0 then []
    else
      var earlier := SelectRows(lines[..|lines| - 1]);
      var last := lines[|lines| - 1];
      if IsSensorLine(last) then earlier + [Split(last, Delimiter)] else earlier
  }

  /** `parse_sensor_data`. Its result is the same as selecting over the plain
      split on `\n`: the only piece `Lines` drops is empty, and an empty line is
      never a sensor line. */
  function ParseSensorData(raw: string): (rows: seq<Row>)
    ensures rows == SelectRows(Split(raw, '\n'))
  {
    DroppedPieceIrrelevant(raw);
    SelectRows(Lines(raw))
  }

  lemma DroppedPieceIrrelevant(raw: string)
    ensures SelectRows(Lines(raw)) == SelectRows(Split(raw, '\n'))
  {
    var pieces := Split(raw, '\n');
    assert !Contains("", "Temp") by { ShorterDoesNotContain("", "Temp"); }
    assert !Contains("", "RPM") by { ShorterDoesNotContain("", "RPM"); }
    if raw == "" {
      assert pieces == [""];
      assert pieces[..0] == [];
    } else if |pieces| > 1 && pieces[|pieces| - 1] == "" {
      assert Lines(raw) == pieces[..|pieces| - 1];
    }
  }

  /** Positions of the sensor lines, in increasing order: an independent
      description of which lines the parser keeps. */
  function SensorLineIndices(lines: seq<string>): (ix: seq<nat>)
    ensures forall k :: 0 <= k < |ix| ==> ix[k] < |lines| && IsSensorLine(lines[ix[k]])
    ensures forall k, m :: 0 <= k < m < |ix| ==> ix[k] < ix[m]
    ensures forall i :: 0 <= i < |lines| && IsSensorLine(lines[i]) ==> i in ix
    decreases |lines|
  {
    if |lines| == 0 then []
    else
      var n := |lines| - 1;
      var earlier := SensorLineIndices(lines[..n]);
      assert forall i :: 0 <= i < n ==> lines[..n][i] == lines[i];
      if IsSensorLine(lines[n]) then earlier + [n] else earlier
  }

  /** The parser keeps exactly the sensor lines, in input order: its k-th row
      is the split of the k-th sensor line. */
  lemma {:induction false} SelectRowsExactly(lines: seq<string>)
    ensures |SelectRows(lines)| == |SensorLineIndices(lines)|
    ensures forall k :: 0 <= k < |SelectRows(lines)| ==>
              SelectRows(lines)[k] == Split(lines[SensorLineIndices(lines)[k]], Delimiter)
    decreases |lines|
  {
    if |lines| > 0 {
      var n := |lines| - 1;
      var rows, ix := SelectRows(lines), SensorLineIndices(lines);
      var e, eix := SelectRows(lines[..n]), SensorLineIndices(lines[..n]);
      SelectRowsExactly(lines[..n]);
      if IsSensorLine(lines[n]) {
        assert rows == e + [Split(lines[n], Delimiter)] && ix == eix + [n];
      } else {
        assert rows == e && ix == eix;
      }
      forall k | 0 <= k < |e|
        ensures rows[k] == Split(lines[ix[k]], Delimiter)
      {
        assert rows[k] == e[k] && ix[k] == eix[k];
        assert lines[..n][eix[k]] == lines[eix[k]];
      }
    }
  }

  /** Every row rejoins into the line it came from, has one field more than
      that line has delimiters, and every field is delimiter-free. */
  lemma ParsedRowsRoundTrip(lines: seq<string>)
    ensures |SelectRows(lines)| == |SensorLineIndices(lines)|
    ensures forall k :: 0 <= k < |SelectRows(lines)| ==>
              var line := lines[SensorLineIndices(lines)[k]];
              && Join(SelectRows(lines)[k], Delimiter) == line
              && |SelectRows(lines)[k]| == CountChar(line, Delimiter) + 1
              && IsSensorLine(Join(SelectRows(lines)[k], Delimiter))
  {
    SelectRowsExactly(lines);
    forall k | 0 <= k < |SelectRows(lines)|
      ensures var line := lines[SensorLineIndices(lines)[k]];
              && Join(SelectRows(lines)[k], Delimiter) == line
              && |SelectRows(lines)[k]| == CountChar(line, Delimiter) + 1
    {
      var line := lines[SensorLineIndices(lines)[k]];
      JoinSplit(line, Delimiter);
      SplitCount(line, Delimiter);
    }
  }

  lemma {:induction false} NoSensorLinesSelectNothing(lines: seq<string>)
    requires forall k :: 0 <= k < |lines| ==> !IsSensorLine(lines[k])
    ensures SelectRows(lines) == []
    decreases |lines|
  {
    if |lines| > 0 {
      var n := |lines| - 1;
      assert forall k :: 0 <= k < n ==> lines[..n][k] == lines[k];
      NoSensorLinesSelectNothing(lines[..n]);
    }
  }

  /** The parse is empty exactly when the dump has no `Temp` or `RPM` line, so an
      empty result cannot tell "no sensors" apart from "nothing useful printed". */
  lemma NoRowsIffNoSensorLines(raw: string)
    ensures ParseSensorData(raw) == [] <==>
            forall k :: 0 <= k < |Lines(raw)| ==> !IsSensorLine(Lines(raw)[k])
  {
    SelectRowsExactly(Lines(raw));
    if forall k :: 0 <= k < |Lines(raw)| ==> !IsSensorLine(Lines(raw)[k]) {
      NoSensorLinesSelectNothing(Lines(raw));
    }
  }

  /** Every parsed row has at least one field, so `sensor[0]` never fails on it. */
  lemma ParsedRowsNonEmpty(raw: string)
    ensures forall k :: 0 <= k < |ParseSensorData(raw)| ==> |ParseSensorData(raw)[k]| >= 1
  {
    SelectRowsExactly(Lines(raw));
  }
}

=== FILE: SensorPoll.dfy ===
/** One iteration of the sensor thread: `SensorDataThread.get_sensor_data`
    (credential gate, one `sensor` command, parse) and the classification of its
    result into the thread's signals. The process itself is abstract: the model
    receives what the launched command did. */
module SensorPoll {
  import opened Wrappers
  import opened Text
  import opened Ipmi
  import opened SensorParser

  /** What running a command line produced: either the launch itself raised, or
      the process exited with a status and captured output. */
  datatype ProcessResult = LaunchFailed | Exited(exitCode: int, stdout: string, stderr: string)

  /** `execute_cmd`: the stripped standard output, whatever the exit status (a
      non-zero status is only reported on the console); None when launching raised. */
  function ExecuteCmd(p: ProcessResult): (out: Option<string>)
    ensures out.None? <==> p.LaunchFailed?
    ensures p.Exited? ==> out == Some(Strip(p.stdout))
    ensures out.Some? ==> exists i :: TrimmedAt(p.stdout, out.value, i)
    ensures out.Some? && out.value != "" ==> !IsSpace(out.value[0]) && !IsSpace(out.value[|out.value| - 1])
  {
    match p
    case LaunchFailed => None
    case Exited(_, stdout, _) => Some(Strip(stdout))
  }

  /** Neither the exit status nor the captured error text changes what
      `execute_cmd` returns. */
  lemma ExitStatusIgnored(stdout: string, code1: int, err1: string, code2: int, err2: string)
    ensures ExecuteCmd(Exited(code1, stdout, err1)) == ExecuteCmd(Exited(code2, stdout, err2))
    ensures ExecuteCmd(Exited(code1, stdout, err1)).Some?
  {
  }

  /** Python truthiness of a credential: only the empty string is blank. */
  predicate CredentialsMissing(conn: Connection) {
    conn.ip == "" || conn.user == "" || conn.password == ""
  }

  /** What a fetch did: the command lines it issued and the value it returned
      (None, or the list of rows). */
  datatype Fetch = Fetch(commands: seq<string>, data: Option<seq<Row>>)

  /** `get_sensor_data`. The tool path is not checked. */
  function GetSensorData(conn: Connection, p: ProcessResult): (f: Fetch)
    ensures CredentialsMissing(conn) ==> f == Fetch([], None)
    ensures !CredentialsMissing(conn) ==> f.commands == [Invocation(conn, SensorDump)] && f.data.Some?
    ensures f.data == Some([]) <==>
              !CredentialsMissing(conn) && (p.LaunchFailed? || ParseSensorData(Strip(p.stdout)) == [])
  {
    if CredentialsMissing(conn) then Fetch([], None)
    else
      var cmd := Invocation(conn, SensorDump);
      var out := ExecuteCmd(p);
      if out.None? || out.value == "" then
        Fetch([cmd], Some([]))
      else
        Fetch([cmd], Some(ParseSensorData(out.value)))
  }

  /** The signals of `SensorDataThread`. */
  datatype PollEvent = NoSignal | DataReady(rows: seq<Row>) | ErrorOccurred

  /** The body of the `run` loop, without the sleep: a None fetch is silent, an
      empty list is an error, anything else is published as is. */
  function Classify(data: Option<seq<Row>>): (e: PollEvent)
    ensures e.NoSignal? <==> data.None?
    ensures e.ErrorOccurred? <==> data == Some([])
    ensures e.DataReady? <==> data.Some? && data.value != []
    ensures e.DataReady? ==> e.rows == data.value
  {
    match data
    case None => NoSignal
    case Some(rows) => if rows == [] then ErrorOccurred else DataReady(rows)
  }

  /** One pass of the polling loop. */
  datatype PollStep = PollStep(commands: seq<string>, event: PollEvent)

  /** One iteration of `run`: fetch, then signal. Without credentials nothing
      runs and nothing is signalled; otherwise an error is signalled exactly
      when the launch failed or no sensor line survived parsing. */
  function PollOnce(conn: Connection, p: ProcessResult): (step: PollStep)
    ensures step.commands == [] <==> CredentialsMissing(conn)
    ensures step.event.NoSignal? <==> CredentialsMissing(conn)
    ensures step.event.ErrorOccurred? <==>
              !CredentialsMissing(conn) && (p.LaunchFailed? || ParseSensorData(Strip(p.stdout)) == [])
    ensures step.event.DataReady? ==>
              p.Exited? && step.event.rows == ParseSensorData(Strip(p.stdout)) && step.event.rows != []
  {
    var f := GetSensorData(conn, p);
    PollStep(f.commands, Classify(f.data))
  }

  /** Missing credentials: no command is run and nothing is signalled. */
  lemma MissingCredentialsAreSilent(conn: Connection, p: ProcessResult)
    requires CredentialsMissing(conn)
    ensures PollOnce(conn, p) == PollStep([], NoSignal)
  {
  }

  /** With credentials present, exactly the `sensor` command is issued, and the
      iteration signals an error exactly when the launch failed or its stripped
      output holds no `Temp`/`RPM` line; otherwise the parsed rows are published. */
  lemma PollWithCredentials(conn: Connection, p: ProcessResult)
    requires !CredentialsMissing(conn)
    ensures PollOnce(conn, p).commands == [Invocation(conn, SensorDump)]
    ensures PollOnce(conn, p).event.ErrorOccurred? <==>
              p.LaunchFailed? || ParseSensorData(Strip(p.stdout)) == []
    ensures p.Exited? && ParseSensorData(Strip(p.stdout)) != [] ==>
              PollOnce(conn, p).event == DataReady(ParseSensorData(Strip(p.stdout)))
  {
  }

  /** Output that strips to a short word parses to no rows. */
  lemma OkParsesToNothing()
    ensures Strip("ok\n") == "ok"
    ensures ParseSensorData("ok") == []
  {
    assert LeadingSpace("ok\n") == 0;
    assert TrailingStart("ok\n") == 2 by {
      assert "ok\n"[..2] == "ok";
    }
    assert "ok\n"[0..][..2] == "ok";
    SplitWithoutSeparator("ok", '\n');
    ShorterDoesNotContain("ok", "Temp");
    ShorterDoesNotContain("ok", "RPM");
    assert SelectRows(["ok"]) == [] by {
      assert ["ok"][..0] == [];
    }
  }

  /** A successful command whose output has no sensor line is reported exactly
      like a failed one: the exit status never reaches the classification. */
  lemma SuccessWithoutSensorsIsAnError(conn: Connection)
    requires !CredentialsMissing(conn)
    ensures PollOnce(conn, Exited(0, "ok\n", "")).event == ErrorOccurred
    ensures PollOnce(conn, Exited(1, "", "Unable to establish session")).event == ErrorOccurred
  {
    OkParsesToNothing();
    assert Strip("") == "";
  }
}

=== FILE: Text.dfy ===
/** String primitives of Python that the controller relies on: `sub in s`,
    `s.split(c)` and `s.strip()`. Strings are `seq<char>`. `Join`, which the
    controller never calls, is here only to state what splitting preserves. */
module Text {

  /** True when `t` begins with `p`. */
  predicate StartsWith(t: string, p: string) {
    |p| <= |t| && t[..|p|] == p
  }

  /** True when `t` ends with `p`. */
  predicate EndsWith(t: string, p: string) {
    |p| <= |t| && t[|t| - |p|..] == p
  }

  /** Python's `sub in s`: `sub` occurs in `s` as a contiguous run (the empty
      string occurs in every string). */
  predicate Contains(s: string, sub: string)
    decreases |s|
  {
    StartsWith(s, sub) || (|s| > 0 && Contains(s[1..], sub))
  }

  /** `sub` occurs in `s` starting at position `i`. */
  predicate OccursAt(s: string, sub: string, i: int) {
    0 <= i && i + |sub| <= |s| && s[i..i + |sub|] == sub
  }

  /** A string contains every string that occurs in it at a known position. */
  lemma {:induction false} ContainsAt(s: string, sub: string, i: int)
    requires OccursAt(s, sub, i)
    ensures Contains(s, sub)
    decreases i
  {
    if i == 0 {
      assert StartsWith(s, sub);
    } else {
      assert s[1..][i - 1..i - 1 + |sub|] == s[i..i + |sub|];
      ContainsAt(s[1..], sub, i - 1);
    }
  }

  /** `Contains` is exactly "there is a position at which `sub` occurs". */
  lemma {:induction false} ContainsIffOccurs(s: string, sub: string)
    ensures Contains(s, sub) <==> exists i :: OccursAt(s, sub, i)
    decreases |s|
  {
    if Contains(s, sub) {
      if StartsWith(s, sub) {
        assert OccursAt(s, sub, 0);
      } else {
        ContainsIffOccurs(s[1..], sub);
        var j :| OccursAt(s[1..], sub, j);
        assert s[1..][j..j + |sub|] == s[j + 1..j + 1 + |sub|];
        assert OccursAt(s, sub, j + 1);
      }
    }
    if exists i :: OccursAt(s, sub, i) {
      var i :| OccursAt(s, sub, i);
      ContainsAt(s, sub, i);
    }
  }

  /** A string shorter than `sub` cannot contain it. */
  lemma ShorterDoesNotContain(s: string, sub: string)
    requires |s| < |sub|
    ensures !Contains(s, sub)
  {
  }

  /** Number of occurrences of the character `c` in `s`. */
  function CountChar(s: string, c: char): nat
    decreases |s|
  {
    if |s| == 0 then 0
    else (if s[0] == c then 1 else 0) + CountChar(s[1..], c)
  }

  /** Python's `s.split(sep)` for a one-character separator: the maximal
      separator-free runs of `s`, in order, with empty runs kept. */
  function Split(s: string, sep: char): (parts: seq<string>)
    ensures |parts| >= 1
    ensures forall k :: 0 <= k < |parts| ==> sep !in parts[k]
    decreases |s|
  {
    if |s| == 0 then [""]
    else
      var rest := Split(s[1..], sep);
      if s[0] == sep then [""] + rest
      else [[s[0]] + rest[0]] + rest[1..]
  }

  /** Python's `sep.join(parts)`. */
  function Join(parts: seq<string>, sep: char): string
    decreases |parts|
  {
    if |parts| == 0 then ""
    else if |parts| == 1 then parts[0]
    else parts[0] + [sep] + Join(parts[1..], sep)
  }

  /** Splitting loses nothing: joining the pieces back reproduces the input. */
  lemma {:induction false} JoinSplit(s: string, sep: char)
    ensures Join(Split(s, sep), sep) == s
    decreases |s|
  {
    if |s| > 0 {
      var rest := Split(s[1..], sep);
      JoinSplit(s[1..], sep);
      if s[0] == sep {
        assert ([""] + rest)[1..] == rest;
        assert s == [sep] + s[1..];
      } else if |rest| == 1 {
        assert s == [s[0]] + s[1..];
      } else {
        var parts := [[s[0]] + rest[0]] + rest[1..];
        assert parts[1..] == rest[1..];
        assert Join(rest, sep) == rest[0] + [sep] + Join(rest[1..], sep);
        assert s == [s[0]] + s[1..];
      }
    }
  }

  /** The number of pieces is one more than the number of separators. */
  lemma {:induction false} SplitCount(s: string, sep: char)
    ensures |Split(s, sep)| == CountChar(s, sep) + 1
    decreases |s|
  {
    if |s| > 0 {
      SplitCount(s[1..], sep);
    }
  }

  /** Prepending separator-free text only extends the first piece. */
  lemma {:induction false} SplitPrefix(a: string, t: string, sep: char)
    requires sep !in a
    ensures Split(a + t, sep) == [a + Split(t, sep)[0]] + Split(t, sep)[1..]
    decreases |a|
  {
    if |a| > 0 {
      assert (a + t)[1..] == a[1..] + t;
      SplitPrefix(a[1..], t, sep);
      assert [a[0]] + (a[1..] + Split(t, sep)[0]) == a + Split(t, sep)[0];
    } else {
      assert a + t == t;
      assert a + Split(t, sep)[0] == Split(t, sep)[0];
      assert Split(t, sep) == [Split(t, sep)[0]] + Split(t, sep)[1..];
    }
  }

  /** Text without the separator is a single piece. */
  lemma SplitWithoutSeparator(s: string, sep: char)
    requires sep !in s
    ensures Split(s, sep) == [s]
  {
    SplitPrefix(s, "", sep);
    assert Split("", sep) == [""];
    assert s + "" == s;
  }

  /** Joining separator-free pieces and splitting again gives the pieces back. */
  lemma {:induction false} SplitJoin(parts: seq<string>, sep: char)
    requires |parts| >= 1
    requires forall k :: 0 <= k < |parts| ==> sep !in parts[k]
    ensures Split(Join(parts, sep), sep) == parts
    decreases |parts|
  {
    if |parts| == 1 {
      SplitPrefix(parts[0], "", sep);
      assert Split("", sep) == [""];
      assert parts[0] + "" == parts[0];
    } else {
      var tail := Join(parts[1..], sep);
      SplitJoin(parts[1..], sep);
      assert parts[0] + [sep] + tail == parts[0] + ([sep] + tail);
      SplitPrefix(parts[0], [sep] + tail, sep);
      assert ([sep] + tail)[1..] == tail;
      assert Split([sep] + tail, sep) == [""] + Split(tail, sep);
      assert parts[0] + "" == parts[0];
      assert parts == [parts[0]] + parts[1..];
    }
  }

  /** Joining with one more piece at the end adds a separator and the piece. */
  lemma {:induction false} JoinSnoc(parts: seq<string>, x: string, sep: char)
    requires |parts| >= 1
    ensures Join(parts + [x], sep) == Join(parts, sep) + [sep] + x
    decreases |parts|
  {
    var ps := parts + [x];
    if |parts| == 1 {
      assert ps[1..] == [x];
    } else {
      assert ps[1..] == parts[1..] + [x];
      JoinSnoc(parts[1..], x, sep);
    }
  }

  /** A join of two or more pieces ends with a separator and the last piece. */
  lemma JoinLast(parts: seq<string>, sep: char)
    requires |parts| >= 2
    ensures Join(parts, sep) == Join(parts[..|parts| - 1], sep) + [sep] + parts[|parts| - 1]
  {
    var n := |parts| - 1;
    assert parts == parts[..n] + [parts[n]];
    JoinSnoc(parts[..n], parts[n], sep);
  }

  /** Joining two non-empty lists of pieces puts one separator between them. */
  lemma {:induction false} JoinAppend(front: seq<string>, back: seq<string>, sep: char)
    requires |front| >= 1 && |back| >= 1
    ensures Join(front + back, sep) == Join(front, sep) + [sep] + Join(back, sep)
    decreases |front|
  {
    var all := front + back;
    assert all[1..] == front[1..] + back;
    if |front| > 1 {
      JoinAppend(front[1..], back, sep);
    }
  }

  /** The characters Python's `str.isspace` accepts. */
  predicate IsSpace(c: char) {
    || c == ' '
    || '\t' <= c <= '\r'
    || '\U{1C}' <= c <= '\U{1F}'
    || c == '\U{85}' || c == '\U{A0}' || c == '\U{1680}'
    || '\U{2000}' <= c <= '\U{200A}'
    || c == '\U{2028}' || c == '\U{2029}' || c == '\U{202F}' || c == '\U{205F}' || c == '\U{3000}'
  }

  /** Number of leading whitespace characters of `s`. */
  function LeadingSpace(s: string): (n: nat)
    ensures n <= |s|
    ensures forall k :: 0 <= k < n ==> IsSpace(s[k])
    ensures n < |s| ==> !IsSpace(s[n])
    decreases |s|
  {
    if |s| == 0 || !IsSpace(s[0]) then 0 else 1 + LeadingSpace(s[1..])
  }

  /** Length of `s` without its trailing whitespace. */
  function TrailingStart(s: string): (n: nat)
    ensures n <= |s|
    ensures forall k :: n <= k < |s| ==> IsSpace(s[k])
    ensures n > 0 ==> !IsSpace(s[n - 1])
    decreases |s|
  {
    if |s| == 0 || !IsSpace(s[|s| - 1]) then |s| else TrailingStart(s[..|s| - 1])
  }

  /** `r` is `s` with only whitespace removed before position `i` and after
      position `i + |r|`. */
  predicate TrimmedAt(s: string, r: string, i: int) {
    && OccursAt(s, r, i)
    && (forall k :: 0 <= k < i ==> IsSpace(s[k]))
    && (forall k :: i + |r| <= k < |s| ==> IsSpace(s[k]))
  }

  /** Python's `s.strip()`: `s` without leading and trailing whitespace. */
  function Strip(s: string): (r: string)
    ensures exists i :: TrimmedAt(s, r, i)
    ensures |r| > 0 ==> !IsSpace(r[0]) && !IsSpace(r[|r| - 1])
    ensures r == "" <==> forall k :: 0 <= k < |s| ==> IsSpace(s[k])
  {
    var lo := LeadingSpace(s);
    var hi := TrailingStart(s[lo..]);
    StripFacts(s, lo, hi);
    s[lo..lo + hi]
  }

  lemma StripFacts(s: string, lo: nat, hi: nat)
    requires lo <= |s| && hi <= |s| - lo
    requires forall k :: 0 <= k < lo ==> IsSpace(s[k])
    requires lo < |s| ==> !IsSpace(s[lo])
    requires forall k :: 0 <= k < |s[lo..]| && hi <= k ==> IsSpace(s[lo..][k])
    requires hi > 0 ==> !IsSpace(s[lo..][hi - 1])
    ensures TrimmedAt(s, s[lo..lo + hi], lo)
    ensures hi > 0 ==> !IsSpace(s[lo..lo + hi][hi - 1])
    ensures hi == 0 <==> forall k :: 0 <= k < |s| ==> IsSpace(s[k])
  {
    forall k | lo + hi <= k < |s|
      ensures IsSpace(s[k])
    {
      assert s[k] == s[lo..][k - lo];
    }
    if hi == 0 {
      assert lo == |s|;
    } else {
      assert s[lo..][hi - 1] == s[lo + hi - 1];
    }
  }
}

=== FILE: Wrappers.dfy ===
/** The optional-value datatype used throughout the model for Python's `None`. */
module Wrappers {

  datatype Option<+T> = None | Some(value: T)
}
